=== FILE: README.md ===
# Boss Notifier — a Dafny model of the detection and notification core

Boss Notifier is a game plugin. Every two seconds it scans the alive players of the current raid. Each boss it sees for the first time gets an on-screen notification with the boss's display name and a coarse grid location. After the first completed scan it also says once if the raid has no bosses. Each notification stays for a configurable duration, fades out during its last second, and disappears once it is older than that duration. A hotkey replays the most recent notification.

The model has four modules:

- `Options` (options.dfy): the optional value that stands in for a nullable reference.
- `Notifications` (notifications.dfy): the notification list of `BossNotificationManager`. This covers `ShowNotification`, `ShowLastNotification`, the prune step and fade alpha of `OnGUI`, and the newest-first stacking of the drawn boxes. Notifications are records, and an `id` stands in for object identity. `last` holds the current state of the shared "last notification" object. `Valid` states what every reachable list satisfies:
  - no object is listed twice;
  - `last` is the newest object ever created;
  - a listed copy of `last` is the same object as `last`.
- `Detector` (detector.dfy): `BossDetector`. This covers the boss role and name tables, the throttled `Update` tick, the `CheckForBosses` loop, the grid label and `OnDestroy`. A tick returns the notices it raised, and `Announce` applies them to the notification list at the tick's time.
- `Session` (session.dfy): the two components wired together as the plugin wires them. Any interleaving of detector ticks, frames (the prune step) and replay-hotkey presses can be run, and there are lemmas about whole runs.

Time, positions and the duration are `real`. The clock (`Time.time`) and the game world are parameters. `now` is the clock. A `World` holds three things:
- whether the world the detector holds still exists (Unity treats a destroyed object as null);
- whether a world can be found now;
- the alive-players list, as a sequence of `Entity` records.

What the code does, in the cases where a reader might expect something else:

- **Scan errors.** There is no per-entity error isolation. One exception ends the pass, and it is caught once for the whole tick (BossDetector.cs:96-99). The model has two such exceptions:
  - `Entity.Unreadable` is a player object whose properties throw when the scan first reads them. The pass stops there, before that entry has any effect.
  - A player whose `position` is absent is one whose `Position` read throws (BossDetector.cs:126). The scan reads the position only for a new boss, after adding its id to the ledger (BossDetector.cs:123). So that boss ends up in the ledger unannounced and is never announced later (`ScanStopsAtPositionFailure`, `LedgerIdNeverAnnounced`). The results carry such ids as `lost`.

  Bosses announced before the exception stay announced and stay in the ledger. The pass does not count as the first completed scan (`ScanStopsAtUnreadable`, `FinishScan`).
- **No bosses after a boss.** The first-scan flag is set only by a completed pass. Take a first pass that announced Killa and then hit an exception. The next completed pass finds Killa already in the ledger and raises "No bosses detected" (`AbortedFirstPassThenNoBosses`). A boss lost to an unreadable position leads to the same notice (`PositionFailureSilencesBoss`).
- **Detector lifetime.** `_firstScanDone` and `_noBossesNotified` are never reset. The ledger of detected profile ids is cleared only by `OnDestroy`, and `OnDestroy` ends the detector: no tick runs after it. So the ledger only grows while the detector lives (`RunKeepsDetected`), and a boss id seen in one raid is never announced in a later raid of the same session. When a raid ends, the held world is destroyed and the next tick looks for a new one. The flags stay set, so the no-bosses notice comes at most once per detector lifetime, not once per raid (`RunNoBossesAtMostOnce`).
- **Expiry.** Removal is strict (`age > duration`). A notification whose age equals the duration exactly is still listed, with alpha 0. For example, one raised at t = 10 with duration 5 is still listed at t = 15 and gone at t = 15.5 (`FadeScenario`).
- **Fade timing.** Fading starts at age `duration - 1` and is linear down to 0 at age `duration`. With duration 5, a notification raised at t = 10 is fully opaque until t = 14, half faded at t = 14.5 and fully faded at t = 15.
- **Location fallback.** The raw-coordinate fallback in `GetLocationName` is never reached from the scan, because the world is non-null there. The label is always `"Grid: gx, gz"`.

## Model

| member | source | states |
|---|---|---|
| Notifications.IndexOf | BossNotificationManager.cs:51 | the first position holding the given object, or none exactly when the object is not listed (the model of `List.Contains` under reference equality) |
| Notifications.Empty | BossNotificationManager.cs:9-11 | a new manager lists nothing, has no last notification and satisfies the list invariant |
| Notifications.Initialize | BossNotificationManager.cs:23-26 | only the duration changes; the list, the last notification and the invariant are kept |
| Notifications.Show | BossNotificationManager.cs:28-42 | exactly one new visible entry stamped `now` is appended; earlier entries are unchanged; the new entry is fresh (its object was not listed) and becomes `last`; the list invariant is preserved |
| Notifications.ShowLast | BossNotificationManager.cs:44-58 | no-op when nothing was ever raised; otherwise `last` gets timer `now` and becomes visible; if it is still listed it is updated in place, keeping length and position, and every other entry is unchanged; if not, it is appended; the invariant is preserved, so no duplicate is ever listed |
| Notifications.Survivors | BossNotificationManager.cs:109 | an entry is kept exactly when it is in the input and `now - showTime` does not exceed the duration |
| Notifications.Prune | BossNotificationManager.cs:109 | the pruned list holds exactly the entries with `now - showTime <= duration`; `last` and the duration are untouched; the list invariant is preserved |
| Notifications.Alpha | BossNotificationManager.cs:119-127 | alpha is 1 exactly when `age <= duration - 1`; whenever `age <= duration` it lies in [0, 1] |
| Notifications.Draw | BossNotificationManager.cs:112-117 | the drawing loop visits visible entries newest first; slot k shows the k-th of them with its alpha; its top edge is `screenHeight - 20 - 100 - k*110`, so invisible entries take no slot |
| Notifications.Frame | BossNotificationManager.cs:98-117 | a frame prunes, then draws one box per visible survivor, newest first, so box k shows the k-th visible survivor from the end of the list; only listed entries are drawn, no more boxes than entries; every drawn alpha is in [0, 1], because every entry left after the prune has age at most the duration |
| Notifications.NewestFirstVisibleFrom | BossNotificationManager.cs:114-117 | the drawn sequence holds only listed, visible entries and is no longer than the list |
| Notifications.ShowTwiceListsTwo | BossNotificationManager.cs:28-39 | raising the same name and location twice lists two distinct objects, and the length grows by 2 |
| Notifications.SurvivorsAppend | BossNotificationManager.cs:109 | pruning a concatenation concatenates the pruned parts, so survivors keep their original order |
| Notifications.SurvivorsOfSurvivors | BossNotificationManager.cs:109 | filtering already-pruned entries again removes nothing |
| Notifications.PruneIdempotent | BossNotificationManager.cs:109 | pruning twice at the same `now` equals pruning once |
| Notifications.SurvivorsUnique | BossNotificationManager.cs:109 | removing entries never makes two listed objects the same |
| Notifications.ExpiryBoundary | BossNotificationManager.cs:109 | a notification raised at `t0` survives a prune at `now` if and only if `now - t0 <= duration` |
| Notifications.AlphaMonotone | BossNotificationManager.cs:120-127 | alpha never increases as an entry ages |
| Notifications.AlphaFadesToZero | BossNotificationManager.cs:120-127 | alpha is 1 at age `duration - 1`, 0.5 at `duration - 0.5` and 0 at `duration` |
| Notifications.ReplayAfterExpiry | BossNotificationManager.cs:44-58 | once the last notification has expired and been pruned, replay appends that same object at the end with timer `now`, and the invariant holds |
| Notifications.ReplayInPlace | BossNotificationManager.cs:44-58 | while the last notification is listed, replay keeps the length, restarts its timer at its own position and leaves every other entry unchanged |
| Notifications.FadeScenario | BossNotificationManager.cs:109-127 | raised at t = 10 with duration 5: alpha 1 at 13.5, alpha 0.5 at 14.5, still listed with alpha 0 at 15, removed at 15.5 |
| Detector.GridCell | BossDetector.cs:155-160 | the grid cell `(gx, gz)` satisfies `100*gx <= x < 100*(gx+1)` and `100*gz <= z < 100*(gz+1)` |
| Detector.Scan | BossDetector.cs:107-131 | the ledger afterwards is the ledger before plus the announced ids plus at most one lost id; announced ids are pairwise distinct and were not in the ledger before; the lost id was in neither |
| Detector.ScanSources | BossDetector.cs:110-128 | every announcement is the sighting of a list entry that is a non-null player with a profile, is not the local player, has a boss role and has a readable position |
| Detector.ScanIdsFromList | BossDetector.cs:121-123 | every id a scan adds to the ledger, announced or lost, is a boss id of the list |
| Detector.ScanCompletion | BossDetector.cs:108-130 | an unreadable entry always stops the pass; only an unreadable entry or a boss with an unreadable position can stop it; an id is lost only in a pass that stopped |
| Detector.ScanCompletedLedger | BossDetector.cs:121-123 | a pass that runs to the end leaves every boss id of the list in the ledger |
| Detector.NatText | BossDetector.cs:160 | the decimal text of a natural number is a non-empty digit string without a leading zero (except "0" itself) that reads back as the number |
| Detector.IntText | BossDetector.cs:160 | the decimal text of an integer is digits after a first character that is a digit or a minus, the minus appearing exactly when the integer is negative, with no leading zero after the sign unless the text is "0", and it reads back as the integer |
| Detector.LocationLabel | BossDetector.cs:134-160 | the label starts with `Grid: ` and reads back as exactly the grid cell of the position |
| Detector.ParseLabelOfParts | BossDetector.cs:144 | a label built from two integer texts splits back into those two integers at the first comma |
| Detector.LabelsMatchCells | BossDetector.cs:144-160 | two positions get the same label if and only if they lie in the same grid cell |
| Detector.CheckForBosses | BossDetector.cs:102-132 | a null players list gives a completed scan that finds nothing; otherwise the result is the pass over the list, with the same ledger and distinctness guarantees |
| Detector.Announce | BossDetector.cs:121-127 | the notices are raised in order at `now`: the list grows by one entry per notice, earlier entries are untouched, each new entry carries its notice's title and detail, the last one becomes `last`, and the list invariant is kept |
| Detector.Fresh | BossDetector.cs:11-18 | a new detector is uninitialized, has an empty ledger, has no completed scan and satisfies the flag invariant |
| Detector.Initialize | BossDetector.cs:55-59 | the detector becomes initialized; the last check time, the interval, the ledger, the held world and both flags are kept, and so is the flag invariant |
| Detector.InitializeEnablesTicks | BossDetector.cs:55-68 | before `Initialize` every tick changes nothing and raises nothing; after it, a tick one interval or more after the last check fires and moves the last check time to `now` |
| Detector.OnDestroy | BossDetector.cs:163-167 | the ledger is emptied and the held world dropped; the first-scan and no-bosses flags are kept |
| Detector.FinishScan | BossDetector.cs:83-94 | the no-bosses notice is raised, once, exactly when the scan completed and found nothing and it is the first completed scan and the notice was never raised; an aborted scan leaves the first-scan flag as it was |
| Detector.Tick | BossDetector.cs:61-100 | a tick does nothing unless the detector is initialized and `now - lastCheck >= interval`; a firing tick sets `lastCheck := now` even when no world is found, and afterwards holds a world exactly when the held one is still alive or a new one was found, so a live world is kept between ticks; and then raises nothing and keeps the ledger and flags; the ledger grows by exactly the tick's announced ids, which are distinct and new, plus at most one lost id; the no-bosses notice comes at most once, never with a boss announcement and never after the first completed scan; the first completed scan that finds nothing always raises it; a firing tick with a live or newly found world announces exactly the sightings of `CheckForBosses` over the world's players and the current ledger, loses exactly its lost ids, and marks the first scan done exactly when the pass completed (or it was already done) |
| Detector.FirstEmptyScanRaisesNoBosses | BossDetector.cs:83-94 | the first completed scan over an empty list raises only the no-bosses notice and sets both flags |
| Detector.LaterScanAnnouncesNewBoss | BossDetector.cs:83-94 | after the first completed scan, a scan that sees one new boss with a readable position announces exactly that boss and adds its id to the ledger |
| Detector.BossNamesCoverRoles | BossDetector.cs:21-53 | the name table's keys are exactly the boss roles, so the displayed name is always the mapped one |
| Detector.SightingNamesAreBossNames | BossDetector.cs:125 | every announced name is one of the boss display names |
| Detector.ScanAnnouncesEachNewBossOnce | BossDetector.cs:121-127 | a scan announces only boss ids of the list that were not yet in the ledger, one announcement each; a completed scan announces all of them |
| Detector.ScanWithoutBossesIsSilent | BossDetector.cs:110-121 | if no entity is a non-local player with a profile and a boss role, nothing is announced; a missing role reads as the empty role, which is not a boss role, so a player whose profile has no role is never a boss |
| Detector.LocalPlayerNeverAnnounced | BossDetector.cs:113 | the local player is never announced, whatever its role |
| Detector.ScanAppend | BossDetector.cs:108-130 | a pass over `a + rest` that gets through `a` continues over `rest` with the ledger `a` left, and its announcements are those of `a` followed by those of `rest` |
| Detector.ScanStopsAtUnreadable | BossDetector.cs:108-130 | a pass over `a + [unreadable] + b` aborts with the announcements and ledger of the pass over `a` alone; nothing in `b` is examined |
| Detector.ScanStopsAtPositionFailure | BossDetector.cs:121-126 | a new boss whose position cannot be read stops the pass after its id is in the ledger: the announcements are those before it, and its id is added but lost |
| Detector.LedgerIdNeverAnnounced | BossDetector.cs:121 | an id in the ledger is never announced by any scan |
| Detector.ScanScenario | BossDetector.cs:108-131 | scanning an unknown-role player and the same Killa twice announces Killa once, at Killa's grid label |
| Session.Start | BossNotifierPlugin.cs:39-48 | start-up yields an initialized detector with an empty ledger and an empty list with the configured duration; both invariants hold |
| Session.Step | BossNotifierPlugin.cs:58-62 | frames and replay presses never touch the detector, raise notices or lose ids; every event keeps both invariants and the per-tick ledger, deduplication and no-bosses guarantees; a firing tick event with a world announces exactly what `CheckForBosses` finds among the world's players |
| Session.RunPreservesValid | BossNotificationManager.cs:28-58 | over any run of ticks, frames and replays, no notification object is ever listed twice and `last` stays the newest object |
| Session.RunAnnouncesEachBossOnce | BossDetector.cs:121-123 | over any run, no profile id is announced twice and none already in the ledger is announced |
| Session.RunLedger | BossDetector.cs:121-126 | the final ledger is the initial one plus the announced ids plus the lost ids; a lost id was not in the initial ledger and is never announced |
| Session.RunNoBossesAtMostOnce | BossDetector.cs:85-94 | over any run the no-bosses notice is raised at most once, and never once the first scan has completed |
| Session.RunKeepsDetected | BossDetector.cs:121-123 | during a run the ledger only grows |
| Session.EmptyFirstScanThenBoss | BossDetector.cs:83-94 | after start-up, a first scan at t = 2 over an empty list raises only the no-bosses notice; a scan at t = 4 that sees Killa announces Killa and no second no-bosses notice |
| Session.AbortedFirstPassThenNoBosses | BossDetector.cs:83-99 | a first pass that announces Killa and then hits an unreadable entry is followed, on the next completed pass, by the no-bosses notice |
| Session.PositionFailureSilencesBoss | BossDetector.cs:121-126 | a boss whose position cannot be read on the first pass is never announced; its id is lost into the ledger, and the next completed pass raises the no-bosses notice |

## Left out

- Unity and game object graph: `FindObjectOfType<GameWorld>`, `Player` and `Profile` are replaced by the `World` flags and a sequence of entity records. The players list the scan reads is an input of each tick.
- Which property read throws: a throw on any read before the ledger update is one `Unreadable` entry; a throw after it is the unreadable `Position` of a new boss. Exceptions from `ShowNotification`, from the label formatting or elsewhere in the tick are not modelled.
- Floating point: `Time.time`, positions, `Mathf.FloorToInt` and alpha are exact reals, with no rounding or overflow.
- Text formatting: the label's integers are written in plain decimal with a leading `-`, not through culture-dependent formatting. The `F0` raw-coordinate fallback is unreachable from the scan and is left out.
- Rendering: GUI styles, textures, colours, rectangle widths and x positions, and label texts (BossNotificationManager.cs:60-96, 129-188). Only each box's alpha and its top edge are kept.
- `Debug.Log` output: pure logging, with no effect on state.
- Plugin bootstrap (BossNotifierPlugin.cs): configuration binding, the enable flag and key polling. The hotkey is the `ReplayEvent` of `Session`, and start-up is `Session.Start`. `OnDestroy` of the plugin only destroys the components.
- Concurrency: none in the source; events run one at a time.

=== FILE: detector.dfy ===
/** The boss scanner: a throttled tick that looks at the alive players of the
    current game world, announces each boss profile the first time it is
    seen, and once announces that the raid has no bosses when the first
    completed scan found none.

    The tick does not call the notification list itself; it returns the
    notices it raised, in order, and `Announce` applies them to a
    `Notifications.Manager` at the tick's time. */
module Detector {
  import opened Options
  import Notifications

  /** Minimum time between two scans. */
  const CheckInterval: real := 2.0
  /** Side length of one grid cell of the location label. */
  const GridCellSize: real := 100.0

  const NoBossesTitle: string := "No bosses detected"
  const NoBossesDetail: string := "This raid has no bosses"

  /** Spawn roles that count as bosses. */
  const BossRoles: set<string> := {
    "bossBully", "bossKilla", "bossKojaniy", "bossSanitar", "bossGluhar",
    "bossTagilla", "bossKnight", "followerBigPipe", "followerBirdEye",
    "sectantPriest", "bossZryachiy", "bossBoar", "bossBoarSniper"
  }

  /** Display name per boss role. */
  const BossNames: map<string, string> := map[
    "bossBully" := "Reshala",
    "bossKilla" := "Killa",
    "bossKojaniy" := "Shturman",
    "bossSanitar" := "Sanitar",
    "bossGluhar" := "Glukhar",
    "bossTagilla" := "Tagilla",
    "bossKnight" := "Knight",
    "followerBigPipe" := "Big Pipe",
    "followerBirdEye" := "Birdeye",
    "sectantPriest" := "Cultist Priest",
    "bossZryachiy" := "Zryachiy",
    "bossBoar" := "Kaban",
    "bossBoarSniper" := "Kaban Sniper"
  ]

  // ---------------------------------------------------------------------------
  // The scanned population

  /** What the scan reads of a profile: the spawn role, absent when any link
      of the `Info.Settings.Role` chain is missing. */
  datatype Profile = Profile(role: Option<string>)

  /** A player's position on the two horizontal axes. */
  datatype Position = Position(x: real, z: real)

  /** One element of the alive-players list. `Unreadable` stands for a player
      object whose properties throw as soon as the scan reads them, before
      the scan has done anything with it. A player's `position` is absent
      when reading it throws; the scan reads it only for a new boss, after
      that boss's id has gone into the ledger. */
  datatype Entity =
    | Null
    | Unreadable
    | Player(profile: Option<Profile>, isYourPlayer: bool, profileId: string, position: Option<Position>)

  /** What the tick sees of the game world: whether the world the detector
      holds still exists (a destroyed one compares equal to null), whether a
      world object can be found now, and the alive-players list of the world
      the scan reads (absent when that list is null). */
  datatype World = World(heldAlive: bool, available: bool, players: Option<seq<Entity>>)

  /** A boss announced by a scan. */
  datatype Sighting = Sighting(profileId: string, name: string, location: string)

  /** The outcome of one pass over the players: the sightings in order, the
      detected set afterwards, the ids that went into it without being
      announced (a boss whose position could not be read), and whether an
      exception cut the pass short. */
  datatype ScanResult = ScanResult(sightings: seq<Sighting>, detected: set<string>, lost: set<string>, aborted: bool)

  /** Everything a tick raises. */
  datatype Notice = BossNotice(sighting: Sighting) | NoBossesNotice

  datatype Detector = Detector(
    initialized: bool,
    checkInterval: real,
    lastCheckTime: real,
    hasWorld: bool,
    detected: set<string>,
    firstScanDone: bool,
    noBossesNotified: bool)

  /** The state after a tick, the notices it raised in order, and the boss
      ids it put into the ledger without announcing them. */
  datatype TickResult = TickResult(detector: Detector, manager: Notifications.Manager, notices: seq<Notice>, lost: set<string>)

  // ---------------------------------------------------------------------------
  // Classification

  /** The role string the scan compares: the empty string when absent. */
  function RoleText(p: Profile): string {
    p.role.GetOr("")
  }

  /** The boss test of the scan, without the detected-set check. */
  predicate IsBoss(e: Entity) {
    && e.Player?
    && e.profile.Some?
    && !e.isYourPlayer
    && RoleText(e.profile.value) in BossRoles
  }

  /** Display name: the mapped name, or the raw role when unmapped. */
  function DisplayName(role: string): string {
    if role in BossNames then BossNames[role] else role
  }

  /** The grid cell of a position: each horizontal axis divided by the cell
      size and rounded down. */
  function GridCell(x: real, z: real): (cell: (int, int))
    ensures GridCellSize * (cell.0 as real) <= x < GridCellSize * ((cell.0 + 1) as real)
    ensures GridCellSize * (cell.1 as real) <= z < GridCellSize * ((cell.1 + 1) as real)
  {
    ((x / GridCellSize).Floor, (z / GridCellSize).Floor)
  }

  /** The character of a decimal digit. */
  function Digit(k: nat): (c: char)
    requires k < 10
    ensures '0' <= c <= '9' && c as int - '0' as int == k
  {
    ('0' as int + k) as char
  }

  /** The value of a string of decimal digits, most significant first; the
      reading partner of `NatText`. */
  function DigitsValue(s: string): nat
    decreases |s|
  {
    if |s| == 0 then 0
    else
      var k := s[|s| - 1] as int - '0' as int;
      DigitsValue(s[..|s| - 1]) * 10 + (if 0 <= k then k else 0)
  }

  /** Decimal text of a natural number, most significant digit first: at
      least one digit, and reading the digits back gives the number. */
  function NatText(n: nat): (s: string)
    ensures |s| >= 1 && forall i :: 0 <= i < |s| ==> '0' <= s[i] <= '9'
    ensures |s| > 1 ==> s[0] != '0'
    ensures DigitsValue(s) == n
    decreases n
  {
    var d := Digit(n % 10);
    if n < 10 then
      assert [d][..0] == [];
      [d]
    else
      var t := NatText(n / 10);
      assert (t + [d])[..|t|] == t;
      t + [d]
  }

  /** The value of a decimal integer text, with an optional leading minus. */
  function IntValue(s: string): int {
    if |s| > 0 && s[0] == '-' then -(DigitsValue(s[1..]) as int) else DigitsValue(s)
  }

  /** Decimal text of an integer, with a leading minus sign when negative:
      only digits and the sign, and reading it back gives the number. */
  function IntText(n: int): (s: string)
    ensures |s| >= 1 && forall i :: 0 < i < |s| ==> '0' <= s[i] <= '9'
    ensures s[0] == '-' || '0' <= s[0] <= '9'
    ensures s[0] == '-' <==> n < 0
    ensures |s| > 1 ==> s[0] != '0' && (s[0] == '-' ==> s[1] != '0')
    ensures IntValue(s) == n
  {
    if n < 0 then
      var t := NatText(-n);
      assert ("-" + t)[1..] == t;
      "-" + t
    else NatText(n)
  }

  const LabelPrefix: string := "Grid: "

  /** The position of the first `c` in `s`, or `|s|` when there is none. */
  function IndexOfChar(s: string, c: char): (i: nat)
    ensures i <= |s|
    ensures forall k :: 0 <= k < i ==> s[k] != c
    ensures i < |s| ==> s[i] == c
    decreases |s|
  {
    if |s| == 0 then 0
    else if s[0] == c then 0
    else 1 + IndexOfChar(s[1..], c)
  }

  /** Reading a label back: "Grid: ", an integer, ", ", an integer. */
  function ParseLabel(s: string): Option<(int, int)> {
    if |s| < |LabelPrefix| || s[..|LabelPrefix|] != LabelPrefix then None
    else
      var body := s[|LabelPrefix|..];
      var i := IndexOfChar(body, ',');
      if i + 1 < |body| && body[i + 1] == ' ' then Some((IntValue(body[..i]), IntValue(body[i + 2..])))
      else None
  }

  /** A label built from two integer texts reads back as the two integers:
      the first comma of the body is the separator, because integer texts
      hold only digits and the sign. */
  lemma {:induction false} ParseLabelOfParts(a: string, b: string)
    requires forall k :: 0 <= k < |a| ==> a[k] == '-' || '0' <= a[k] <= '9'
    ensures ParseLabel(LabelPrefix + a + ", " + b) == Some((IntValue(a), IntValue(b)))
  {
    var s := LabelPrefix + a + ", " + b;
    var body := a + ", " + b;
    assert s[..|LabelPrefix|] == LabelPrefix;
    assert s[|LabelPrefix|..] == body;
    assert body[|a|] == ',';
    assert forall k :: 0 <= k < |a| ==> body[k] == a[k];
    assert IndexOfChar(body, ',') == |a|;
    assert body[..|a|] == a;
    assert body[|a| + 2..] == b;
  }

  /** The location label raised with a boss: "Grid: gx, gz". It starts with
      the grid prefix and reads back as the position's grid cell, so the
      label tells the cell exactly. */
  function LocationLabel(p: Position): (s: string)
    ensures |s| > |LabelPrefix| && s[..|LabelPrefix|] == LabelPrefix
    ensures ParseLabel(s) == Some(GridCell(p.x, p.z))
  {
    var cell := GridCell(p.x, p.z);
    var a := IntText(cell.0);
    var b := IntText(cell.1);
    ParseLabelOfParts(a, b);
    assert (LabelPrefix + a + ", " + b)[..|LabelPrefix|] == LabelPrefix;
    LabelPrefix + a + ", " + b
  }

  /** Two boss positions get the same label exactly when they lie in the
      same grid cell. */
  lemma LabelsMatchCells(p: Position, q: Position)
    ensures LocationLabel(p) == LocationLabel(q) <==> GridCell(p.x, p.z) == GridCell(q.x, q.z)
  {
  }

  /** The sighting a boss entity raises. */
  function SightingOf(e: Entity): Sighting
    requires e.Player? && e.profile.Some? && e.position.Some?
  {
    Sighting(e.profileId, DisplayName(RoleText(e.profile.value)), LocationLabel(e.position.value))
  }

  // ---------------------------------------------------------------------------
  // Reference sets

  /** Profile ids of the boss entities in a list, whether or not already
      detected. */
  function BossIds(es: seq<Entity>): set<string>
    decreases |es|
  {
    if |es| == 0 then {}
    else (if IsBoss(es[0]) then {es[0].profileId} else {}) + BossIds(es[1..])
  }

  function SightingIds(ss: seq<Sighting>): set<string>
    decreases |ss|
  {
    if |ss| == 0 then {} else {ss[0].profileId} + SightingIds(ss[1..])
  }

  ghost predicate DistinctIds(ss: seq<Sighting>) {
    forall i, j :: 0 <= i < j < |ss| ==> ss[i].profileId != ss[j].profileId
  }

  predicate HasUnreadable(es: seq<Entity>) {
    exists i :: 0 <= i < |es| && es[i].Unreadable?
  }

  /** An entry that can throw during the scan: an unreadable object, or a
      boss whose position cannot be read. */
  predicate Faulty(e: Entity) {
    e.Unreadable? || (IsBoss(e) && e.position.None?)
  }

  predicate HasFaulty(es: seq<Entity>) {
    exists i :: 0 <= i < |es| && Faulty(es[i])
  }

  // ---------------------------------------------------------------------------
  // The scan

  /** The loop of `CheckForBosses` over the players list, given the detected
      set before it. A boss whose id is not yet detected has its id added and
      is then announced at its position; an unreadable entry stops the pass
      there, and so does a new boss whose position cannot be read, after its
      id has been added. */
  function Scan(es: seq<Entity>, detected: set<string>): (r: ScanResult)
    ensures r.detected == detected + SightingIds(r.sightings) + r.lost
    ensures r.lost !! detected && r.lost !! SightingIds(r.sightings) && |r.lost| <= 1
    ensures DistinctIds(r.sightings)
    ensures forall k :: 0 <= k < |r.sightings| ==> r.sightings[k].profileId !in detected
    decreases |es|
  {
    if |es| == 0 then ScanResult([], detected, {}, false)
    else
      var e := es[0];
      if e.Unreadable? then ScanResult([], detected, {}, true)
      else if !IsBoss(e) || e.profileId in detected then Scan(es[1..], detected)
      else if e.position.None? then ScanResult([], detected + {e.profileId}, {e.profileId}, true)
      else
        var rest := Scan(es[1..], detected + {e.profileId});
        PrependSighting(SightingOf(e), rest.sightings, detected);
        LedgerPrepend(detected, e.profileId, SightingIds(rest.sightings), rest.lost, rest.detected);
        ScanResult([SightingOf(e)] + rest.sightings, rest.detected, rest.lost, rest.aborted)
  }

  /** The ledger bookkeeping of announcing a new id in front of a pass over
      the rest of the list. */
  lemma LedgerPrepend(detected: set<string>, id: string, ids: set<string>, lost: set<string>, after: set<string>)
    requires after == detected + {id} + ids + lost
    requires lost !! detected + {id} && lost !! ids
    ensures after == detected + ({id} + ids) + lost
    ensures lost !! detected && lost !! {id} + ids
  {
  }

  /** Announcing a new id in front of announcements of ids that are newer
      still keeps the ids distinct and new. */
  lemma PrependSighting(x: Sighting, rest: seq<Sighting>, detected: set<string>)
    requires x.profileId !in detected
    requires DistinctIds(rest)
    requires forall k :: 0 <= k < |rest| ==> rest[k].profileId !in detected + {x.profileId}
    ensures DistinctIds([x] + rest)
    ensures forall k :: 0 <= k < |[x] + rest| ==> ([x] + rest)[k].profileId !in detected
    ensures SightingIds([x] + rest) == {x.profileId} + SightingIds(rest)
  {
    assert ([x] + rest)[1..] == rest;
  }

  /** `CheckForBosses`: a null players list is a completed scan that found
      nothing. */
  function CheckForBosses(players: Option<seq<Entity>>, detected: set<string>): (r: ScanResult)
    ensures players.None? ==> r == ScanResult([], detected, {}, false)
    ensures players.Some? ==> r == Scan(players.value, detected)
    ensures r.detected == detected + SightingIds(r.sightings) + r.lost
    ensures r.lost !! detected && r.lost !! SightingIds(r.sightings) && |r.lost| <= 1
    ensures DistinctIds(r.sightings)
    ensures forall k :: 0 <= k < |r.sightings| ==> r.sightings[k].profileId !in detected
  {
    match players
    case None => ScanResult([], detected, {}, false)
    case Some(es) => Scan(es, detected)
  }

  // ---------------------------------------------------------------------------
  // Notices

  function Sightings(ns: seq<Notice>): seq<Sighting>
    decreases |ns|
  {
    if |ns| == 0 then []
    else (if ns[0].BossNotice? then [ns[0].sighting] else []) + Sightings(ns[1..])
  }

  function CountNoBosses(ns: seq<Notice>): nat
    decreases |ns|
  {
    if |ns| == 0 then 0
    else (if ns[0].NoBossesNotice? then 1 else 0) + CountNoBosses(ns[1..])
  }

  function BossNotices(ss: seq<Sighting>): (ns: seq<Notice>)
    ensures Sightings(ns) == ss && CountNoBosses(ns) == 0
    decreases |ss|
  {
    if |ss| == 0 then [] else [BossNotice(ss[0])] + BossNotices(ss[1..])
  }

  /** Title and detail text of a notice. */
  function NoticeTitle(n: Notice): string {
    match n
    case BossNotice(s) => s.name
    case NoBossesNotice => NoBossesTitle
  }

  function NoticeDetail(n: Notice): string {
    match n
    case BossNotice(s) => s.location
    case NoBossesNotice => NoBossesDetail
  }

  /** Raise the notices, in order, at time `now`. */
  function Announce(m: Notifications.Manager, ns: seq<Notice>, now: real): (r: Notifications.Manager)
    ensures |r.entries| == |m.entries| + |ns|
    ensures r.entries[..|m.entries|] == m.entries
    ensures forall k :: 0 <= k < |ns| ==> Raised(r.entries[|m.entries| + k], ns[k], now)
    ensures |ns| > 0 ==> r.last == Some(r.entries[|r.entries| - 1])
    ensures |ns| == 0 ==> r == m
    ensures r.duration == m.duration
    ensures Notifications.Valid(m) ==> Notifications.Valid(r)
    decreases |ns|
  {
    if |ns| == 0 then m
    else
      var init := ns[..|ns| - 1];
      var a := Announce(m, init, now);
      var n := ns[|ns| - 1];
      var r := Notifications.Show(a, NoticeTitle(n), NoticeDetail(n), now);
      assert forall k :: 0 <= k < |ns| - 1 ==> ns[k] == init[k];
      assert forall j :: 0 <= j < |a.entries| ==> r.entries[j] == a.entries[j] by {
        assert r.entries[..|a.entries|] == a.entries;
      }
      r
  }

  /** The entry a notice produces when raised at `now`. */
  predicate Raised(e: Notifications.Notification, n: Notice, now: real) {
    e.bossName == NoticeTitle(n) && e.location == NoticeDetail(n) && e.showTime == now && e.isVisible
  }

  // ---------------------------------------------------------------------------
  // The detector's life cycle

  /** A fresh detector: not initialized, never checked, nothing detected. */
  function Fresh(): (d: Detector)
    ensures Valid(d)
    ensures d.detected == {} && !d.firstScanDone && !d.initialized
  {
    Detector(false, CheckInterval, 0.0, false, {}, false, false)
  }

  /** The flags only ever go up together: the no-bosses notice is raised on
      the first completed scan. */
  ghost predicate Valid(d: Detector) {
    d.noBossesNotified ==> d.firstScanDone
  }

  /** `Initialize(manager)`: from now on ticks do work. The throttle state,
      the ledger and the flags are left as they were. */
  function Initialize(d: Detector): (r: Detector)
    ensures r.initialized
    ensures r.lastCheckTime == d.lastCheckTime && r.checkInterval == d.checkInterval
    ensures r.detected == d.detected && r.hasWorld == d.hasWorld
    ensures r.firstScanDone == d.firstScanDone && r.noBossesNotified == d.noBossesNotified
    ensures Valid(d) ==> Valid(r)
  {
    d.(initialized := true)
  }

  /** `OnDestroy`: the detected set and the held world are dropped; the
      first-scan and no-bosses flags are kept. */
  function OnDestroy(d: Detector): (r: Detector)
    ensures r.detected == {} && !r.hasWorld
    ensures r.firstScanDone == d.firstScanDone && r.noBossesNotified == d.noBossesNotified
    ensures Valid(d) ==> Valid(r)
  {
    d.(detected := {}, hasWorld := false)
  }

  /** The end of a firing tick once the scan has run: record the new
      detected set, raise the sightings, and on the first completed scan set
      the first-scan flag and, if nothing was found, raise the no-bosses
      notice once. An aborted scan skips that step. */
  function FinishScan(d: Detector, m: Notifications.Manager, now: real, scan: ScanResult): (r: TickResult)
    ensures r.detector.detected == scan.detected && r.lost == scan.lost
    ensures r.manager == Announce(m, r.notices, now)
    ensures Sightings(r.notices) == scan.sightings
    ensures CountNoBosses(r.notices) <= 1
    ensures CountNoBosses(r.notices) == 1 <==>
      !scan.aborted && !d.firstScanDone && !d.noBossesNotified && scan.sightings == []
    ensures r.detector.firstScanDone <==> d.firstScanDone || !scan.aborted
    ensures r.detector.noBossesNotified <==> d.noBossesNotified || CountNoBosses(r.notices) == 1
    ensures r.detector == d.(detected := scan.detected, firstScanDone := r.detector.firstScanDone,
                             noBossesNotified := r.detector.noBossesNotified)
  {
    var found := BossNotices(scan.sightings);
    var d1 := d.(detected := scan.detected);
    if scan.aborted || d1.firstScanDone then
      TickResult(d1, Announce(m, found, now), found, scan.lost)
    else if |scan.sightings| == 0 && !d1.noBossesNotified then
      assert found == [];
      var ns := [NoBossesNotice];
      SingleNoBossesNotice();
      TickResult(d1.(firstScanDone := true, noBossesNotified := true), Announce(m, ns, now), ns, scan.lost)
    else
      TickResult(d1.(firstScanDone := true), Announce(m, found, now), found, scan.lost)
  }

  lemma SingleNoBossesNotice()
    ensures Sightings([NoBossesNotice]) == [] && CountNoBosses([NoBossesNotice]) == 1
  {
    assert [NoBossesNotice][1..] == [];
  }

  /** One `Update`: throttle, find the world, scan, and on the first
      completed scan possibly raise the no-bosses notice. An aborted scan
      keeps what it raised and added before the exception, and does not
      count as the first completed scan. */
  function Tick(d: Detector, m: Notifications.Manager, now: real, world: World): (r: TickResult)
    ensures !d.initialized || now - d.lastCheckTime < d.checkInterval ==> r == TickResult(d, m, [], {})
    ensures d.initialized && now - d.lastCheckTime >= d.checkInterval ==> r.detector.lastCheckTime == now
    ensures (!d.hasWorld || !world.heldAlive) && !world.available ==>
      r.notices == [] && r.detector.detected == d.detected && r.detector.firstScanDone == d.firstScanDone
    ensures r.detector.initialized == d.initialized && r.detector.checkInterval == d.checkInterval
    ensures r.manager == Announce(m, r.notices, now)
    ensures r.detector.detected == d.detected + SightingIds(Sightings(r.notices)) + r.lost
    ensures r.lost !! d.detected && r.lost !! SightingIds(Sightings(r.notices)) && |r.lost| <= 1
    ensures DistinctIds(Sightings(r.notices))
    ensures forall k :: 0 <= k < |Sightings(r.notices)| ==> Sightings(r.notices)[k].profileId !in d.detected
    ensures CountNoBosses(r.notices) <= 1
    ensures CountNoBosses(r.notices) == 1 ==>
      && !d.firstScanDone && !d.noBossesNotified
      && Sightings(r.notices) == [] && r.detector.firstScanDone
    ensures r.detector.noBossesNotified <==> d.noBossesNotified || CountNoBosses(r.notices) == 1
    ensures d.firstScanDone ==> r.detector.firstScanDone
    ensures Valid(d) && !d.firstScanDone && r.detector.firstScanDone && Sightings(r.notices) == [] ==>
      CountNoBosses(r.notices) == 1
    ensures Valid(d) ==> Valid(r.detector)
    ensures d.initialized && now - d.lastCheckTime >= d.checkInterval ==>
      (r.detector.hasWorld <==> (d.hasWorld && world.heldAlive) || world.available)
    ensures (d.initialized && now - d.lastCheckTime >= d.checkInterval
             && ((d.hasWorld && world.heldAlive) || world.available)) ==>
      var s := CheckForBosses(world.players, d.detected);
      && Sightings(r.notices) == s.sightings && r.lost == s.lost
      && (r.detector.firstScanDone <==> d.firstScanDone || !s.aborted)
  {
    if !d.initialized || now - d.lastCheckTime < d.checkInterval then TickResult(d, m, [], {})
    else
      var d1 := d.(lastCheckTime := now);
      if (!d1.hasWorld || !world.heldAlive) && !world.available then TickResult(d1.(hasWorld := false), m, [], {})
      else
        var d2 := d1.(hasWorld := true);
        FinishScan(d2, m, now, CheckForBosses(world.players, d2.detected))
  }

  /** Ticks are inert until `Initialize`; after it, a tick that comes at
      least one interval after the last check fires and moves the last
      check time to `now`. */
  lemma InitializeEnablesTicks(d: Detector, m: Notifications.Manager, now: real, world: World)
    requires !d.initialized
    ensures Tick(d, m, now, world) == TickResult(d, m, [], {})
    ensures now - d.lastCheckTime >= d.checkInterval ==>
      Tick(Initialize(d), m, now, world).detector.lastCheckTime == now
  {
  }

  /** The first completed scan over an empty players list raises the
      no-bosses notice and nothing else, and sets both flags. */
  lemma FirstEmptyScanRaisesNoBosses(d: Detector, m: Notifications.Manager, now: real, world: World)
    requires d.initialized && now - d.lastCheckTime >= d.checkInterval
    requires world.available && world.players == Some([])
    requires !d.firstScanDone && !d.noBossesNotified
    ensures var r := Tick(d, m, now, world);
      && r.notices == [NoBossesNotice]
      && r.detector == d.(lastCheckTime := now, hasWorld := true, firstScanDone := true, noBossesNotified := true)
      && r.lost == {}
  {
    assert Scan([], d.detected) == ScanResult([], d.detected, {}, false);
  }

  /** After the first completed scan, a scan that sees one new boss with a
      readable position announces exactly that boss and records its id. */
  lemma LaterScanAnnouncesNewBoss(d: Detector, m: Notifications.Manager, now: real, world: World, boss: Entity)
    requires d.initialized && now - d.lastCheckTime >= d.checkInterval
    requires world.available && world.players == Some([boss])
    requires d.firstScanDone
    requires IsBoss(boss) && boss.position.Some? && boss.profileId !in d.detected
    ensures var r := Tick(d, m, now, world);
      && r.notices == [BossNotice(SightingOf(boss))]
      && r.detector == d.(lastCheckTime := now, hasWorld := true, detected := d.detected + {boss.profileId})
      && r.lost == {}
  {
    var id := boss.profileId;
    assert [boss][1..] == [];
    assert Scan([], d.detected + {id}) == ScanResult([], d.detected + {id}, {}, false);
    assert Scan([boss], d.detected) == ScanResult([SightingOf(boss)], d.detected + {id}, {}, false);
    assert BossNotices([SightingOf(boss)]) == [BossNotice(SightingOf(boss))];
  }

  // ---------------------------------------------------------------------------
  // Properties of the scan

  /** Every boss role has a display name, so a sighting's name is always the
      mapped one and never the raw role. */
  lemma BossNamesCoverRoles()
    ensures BossNames.Keys == BossRoles
    ensures forall role :: role in BossRoles ==> DisplayName(role) == BossNames[role]
  {
  }

  /** A sighting's name is one of the boss display names. */
  lemma SightingNamesAreBossNames(es: seq<Entity>, detected: set<string>)
    ensures forall s :: s in Scan(es, detected).sightings ==> s.name in BossNames.Values
  {
    ScanSources(es, detected);
  }

  /** Distinct ids make as many set elements as list entries. */
  lemma {:induction false} SightingIdsCount(ss: seq<Sighting>)
    requires DistinctIds(ss)
    ensures |SightingIds(ss)| == |ss|
    decreases |ss|
  {
    if |ss| > 0 {
      SightingIdsCount(ss[1..]);
      SightingIdsMembers(ss[1..]);
      assert ss[0].profileId !in SightingIds(ss[1..]);
    }
  }

  lemma {:induction false} SightingIdsMembers(ss: seq<Sighting>)
    ensures forall id :: id in SightingIds(ss) <==> exists k :: 0 <= k < |ss| && ss[k].profileId == id
    decreases |ss|
  {
    if |ss| > 0 {
      SightingIdsMembers(ss[1..]);
      assert forall k :: 1 <= k < |ss| ==> ss[1..][k - 1] == ss[k];
    }
  }

  /** Every announcement of a scan is the sighting of a boss entity of the
      list whose position was read. */
  lemma {:induction false} ScanSources(es: seq<Entity>, detected: set<string>)
    ensures forall s :: s in Scan(es, detected).sightings ==>
      exists e :: e in es && IsBoss(e) && e.position.Some? && s == SightingOf(e)
    decreases |es|
  {
    if |es| > 0 {
      var e := es[0];
      assert forall x :: x in es[1..] ==> x in es;
      if e.Unreadable? {
      } else if !IsBoss(e) || e.profileId in detected {
        ScanSources(es[1..], detected);
      } else if e.position.None? {
      } else {
        var rest := Scan(es[1..], detected + {e.profileId});
        ScanSources(es[1..], detected + {e.profileId});
        assert Scan(es, detected).sightings == [SightingOf(e)] + rest.sightings;
      }
    }
  }

  /** The ids a scan adds to the ledger, announced or not, are boss ids of
      the list. */
  lemma {:induction false} ScanIdsFromList(es: seq<Entity>, detected: set<string>)
    ensures var r := Scan(es, detected);
      SightingIds(r.sightings) <= BossIds(es) && r.lost <= BossIds(es)
    decreases |es|
  {
    if |es| > 0 {
      var e := es[0];
      assert BossIds(es) == (if IsBoss(e) then {e.profileId} else {}) + BossIds(es[1..]);
      if e.Unreadable? {
      } else if !IsBoss(e) || e.profileId in detected {
        ScanIdsFromList(es[1..], detected);
        assert Scan(es, detected) == Scan(es[1..], detected);
      } else if e.position.None? {
      } else {
        var rest := Scan(es[1..], detected + {e.profileId});
        ScanIdsFromList(es[1..], detected + {e.profileId});
        var ss := [SightingOf(e)] + rest.sightings;
        assert ss[1..] == rest.sightings;
        assert SightingIds(ss) == {e.profileId} + SightingIds(rest.sightings);
      }
    }
  }

  /** When a pass stops early: an unreadable entry always stops it, only a
      faulty entry can, and ids go into the ledger unannounced only in a
      pass that stopped. */
  lemma {:induction false} ScanCompletion(es: seq<Entity>, detected: set<string>)
    ensures var r := Scan(es, detected);
      && (HasUnreadable(es) ==> r.aborted)
      && (r.aborted ==> HasFaulty(es))
      && (r.lost != {} ==> r.aborted)
    decreases |es|
  {
    if |es| > 0 {
      var e := es[0];
      var r := Scan(es, detected);
      if e.Unreadable? || (IsBoss(e) && e.profileId !in detected && e.position.None?) {
        assert Faulty(es[0]);
      } else {
        var d' := if IsBoss(e) && e.profileId !in detected then detected + {e.profileId} else detected;
        var rest := Scan(es[1..], d');
        ScanCompletion(es[1..], d');
        assert r.aborted == rest.aborted && r.lost == rest.lost;
        if HasUnreadable(es) {
          var i :| 0 <= i < |es| && es[i].Unreadable?;
          assert es[1..][i - 1].Unreadable?;
        }
        if rest.aborted {
          var i :| 0 <= i < |es[1..]| && Faulty(es[1..][i]);
          assert Faulty(es[i + 1]);
        }
      }
    }
  }

  /** A pass that runs to the end leaves every boss id of the list in the
      ledger. */
  lemma {:induction false} ScanCompletedLedger(es: seq<Entity>, detected: set<string>)
    ensures var r := Scan(es, detected);
      !r.aborted ==> r.detected == detected + BossIds(es)
    decreases |es|
  {
    if |es| > 0 {
      var e := es[0];
      var r := Scan(es, detected);
      if e.Unreadable? {
      } else if !IsBoss(e) || e.profileId in detected {
        ScanCompletedLedger(es[1..], detected);
        assert r == Scan(es[1..], detected);
      } else if e.position.None? {
      } else {
        var rest := Scan(es[1..], detected + {e.profileId});
        ScanCompletedLedger(es[1..], detected + {e.profileId});
        assert r.aborted == rest.aborted && r.detected == rest.detected;
      }
    }
  }

  /** A scan announces only boss ids not detected before, one announcement
      each; a completed scan announces all of them. */
  lemma ScanAnnouncesEachNewBossOnce(es: seq<Entity>, detected: set<string>)
    ensures var r := Scan(es, detected);
      && SightingIds(r.sightings) <= BossIds(es) - detected
      && |r.sightings| == |SightingIds(r.sightings)|
      && (!r.aborted ==> SightingIds(r.sightings) == BossIds(es) - detected)
  {
    var r := Scan(es, detected);
    var ids := SightingIds(r.sightings);
    ScanIdsFromList(es, detected);
    SightingIdsMembers(r.sightings);
    assert ids !! detected;
    SightingIdsCount(r.sightings);
    if !r.aborted {
      ScanCompletion(es, detected);
      ScanCompletedLedger(es, detected);
      assert r.lost == {};
      assert detected + BossIds(es) == detected + ids;
    }
  }

  /** Without a boss among the entities, a scan announces nothing and changes
      nothing: non-boss roles, missing roles, missing profiles, null entries
      and the local player are all passed over. */
  lemma ScanWithoutBossesIsSilent(es: seq<Entity>, detected: set<string>)
    requires forall i :: 0 <= i < |es| ==> !IsBoss(es[i])
    ensures Scan(es, detected).sightings == []
    ensures RoleText(Profile(None)) == "" && "" !in BossRoles
    ensures forall e: Entity :: e.Player? && e.profile == Some(Profile(None)) ==> !IsBoss(e)
  {
  }

  /** The local player is never announced, whatever its role. */
  lemma LocalPlayerNeverAnnounced(es: seq<Entity>, detected: set<string>, id: string)
    requires forall i :: 0 <= i < |es| && es[i].Player? && es[i].profileId == id ==> es[i].isYourPlayer
    ensures forall s :: s in Scan(es, detected).sightings ==> s.profileId != id
  {
    ScanSources(es, detected);
  }

  lemma AppendAssociative<T>(a: seq<T>, b: seq<T>, c: seq<T>)
    ensures a + (b + c) == (a + b) + c
  {
  }

  /** A pass over `a + rest` that gets through `a` carries on over `rest`
      with the ledger that `a` left: the announcements are those of `a`
      followed by those of `rest`. */
  lemma {:induction false} ScanAppend(a: seq<Entity>, rest: seq<Entity>, detected: set<string>)
    requires !Scan(a, detected).aborted
    ensures var before := Scan(a, detected);
      var after := Scan(rest, before.detected);
      Scan(a + rest, detected) == ScanResult(before.sightings + after.sightings, after.detected, after.lost, after.aborted)
    decreases |a|
  {
    if |a| == 0 {
      assert a + rest == rest;
      assert Scan(a, detected) == ScanResult([], detected, {}, false);
      assert [] + Scan(rest, detected).sightings == Scan(rest, detected).sightings;
    } else {
      var e := a[0];
      var c := a + rest;
      assert c[0] == e && c[1..] == a[1..] + rest;
      if !IsBoss(e) || e.profileId in detected {
        ScanSkip(c, detected);
        ScanSkip(a, detected);
        ScanAppend(a[1..], rest, detected);
      } else {
        var d' := detected + {e.profileId};
        ScanAnnounce(c, detected);
        ScanAnnounce(a, detected);
        ScanAppend(a[1..], rest, d');
        var ra := Scan(a[1..], d');
        PrependResult(SightingOf(e), ra, Scan(rest, ra.detected), Scan(c[1..], d'));
      }
    }
  }

  /** Announcing one sighting in front of a pass that splits in two is the
      same as announcing it in front of the first part. */
  lemma PrependResult(x: Sighting, ra: ScanResult, rr: ScanResult, rc: ScanResult)
    requires rc == ScanResult(ra.sightings + rr.sightings, rr.detected, rr.lost, rr.aborted)
    ensures ScanResult([x] + rc.sightings, rc.detected, rc.lost, rc.aborted)
         == ScanResult(([x] + ra.sightings) + rr.sightings, rr.detected, rr.lost, rr.aborted)
  {
    AppendAssociative([x], ra.sightings, rr.sightings);
  }

  /** A pass skips a leading entry that is readable but no new boss. */
  lemma ScanSkip(es: seq<Entity>, detected: set<string>)
    requires |es| > 0 && !es[0].Unreadable? && (!IsBoss(es[0]) || es[0].profileId in detected)
    ensures Scan(es, detected) == Scan(es[1..], detected)
  {
  }

  /** A pass announces a leading new boss with a readable position, then
      carries on with its id in the ledger. */
  lemma ScanAnnounce(es: seq<Entity>, detected: set<string>)
    requires |es| > 0 && IsBoss(es[0]) && es[0].profileId !in detected && es[0].position.Some?
    ensures var rest := Scan(es[1..], detected + {es[0].profileId});
      Scan(es, detected) == ScanResult([SightingOf(es[0])] + rest.sightings, rest.detected, rest.lost, rest.aborted)
  {
  }

  /** No per-entity isolation: an unreadable entry ends the pass, so nothing
      after it is looked at, while what came before it stands. */
  lemma ScanStopsAtUnreadable(a: seq<Entity>, b: seq<Entity>, detected: set<string>)
    requires !Scan(a, detected).aborted
    ensures var r := Scan(a + [Unreadable] + b, detected);
      var before := Scan(a, detected);
      && r.aborted
      && r.sightings == before.sightings
      && r.detected == before.detected
      && r.lost == {}
  {
    var before := Scan(a, detected);
    assert a + [Unreadable] + b == a + ([Unreadable] + b);
    ScanAppend(a, [Unreadable] + b, detected);
    assert Scan([Unreadable] + b, before.detected) == ScanResult([], before.detected, {}, true);
    assert before.sightings + [] == before.sightings;
  }

  /** A new boss whose position cannot be read also ends the pass, but only
      after its id has gone into the ledger: it is not announced, and what
      came before it stands. */
  lemma ScanStopsAtPositionFailure(a: seq<Entity>, boss: Entity, b: seq<Entity>, detected: set<string>)
    requires !Scan(a, detected).aborted
    requires IsBoss(boss) && boss.position.None? && boss.profileId !in Scan(a, detected).detected
    ensures var r := Scan(a + [boss] + b, detected);
      var before := Scan(a, detected);
      && r.aborted
      && r.sightings == before.sightings
      && r.detected == before.detected + {boss.profileId}
      && r.lost == {boss.profileId}
  {
    var before := Scan(a, detected);
    var id := boss.profileId;
    assert a + [boss] + b == a + ([boss] + b);
    ScanAppend(a, [boss] + b, detected);
    assert ([boss] + b)[0] == boss;
    assert Scan([boss] + b, before.detected) == ScanResult([], before.detected + {id}, {id}, true);
    assert before.sightings + [] == before.sightings;
  }

  /** An id in the ledger is never announced, so a boss lost to an
      unreadable position stays unannounced for the detector's life. */
  lemma LedgerIdNeverAnnounced(es: seq<Entity>, detected: set<string>, id: string)
    requires id in detected
    ensures id !in SightingIds(Scan(es, detected).sightings)
  {
    SightingIdsMembers(Scan(es, detected).sightings);
  }

  /** A scan over an unknown-role player and the same Killa listed twice
      announces Killa once, at Killa's grid cell. */
  lemma ScanScenario(pa: Position, pb: Position)
    ensures var a := Player(Some(Profile(Some("pmcBot"))), false, "A", Some(pa));
      var b := Player(Some(Profile(Some("bossKilla"))), false, "B", Some(pb));
      var r := Scan([a, b, b], {});
      && r.sightings == [Sighting("B", "Killa", LocationLabel(pb))]
      && r.detected == {"B"}
      && !r.aborted
  {
    var a := Player(Some(Profile(Some("pmcBot"))), false, "A", Some(pa));
    var b := Player(Some(Profile(Some("bossKilla"))), false, "B", Some(pb));
    assert !IsBoss(a);
    assert IsBoss(b);
    assert DisplayName("bossKilla") == "Killa";
    assert [a, b, b][1..] == [b, b];
    assert [b, b][1..] == [b];
    assert [b][1..] == [];
    assert Scan([], {"B"}) == ScanResult([], {"B"}, {}, false);
    var last := Scan([b], {"B"});
    assert last == ScanResult([], {"B"}, {}, false);
    var mid := Scan([b, b], {});
    assert mid == ScanResult([SightingOf(b)], {"B"}, {}, false);
  }
}

=== FILE: notifications.dfy ===
/** The notification list of the boss notifier: raising a notification,
    replaying the most recent one, pruning expired entries, the fade-out
    alpha and the newest-first stacking of the drawn boxes.

    `BossNotificationManager` keeps notifications as mutable objects and the "last"
    notification as a second reference to one of them. Here every
    notification carries an `id` standing in for its object identity, and
    `last` holds the current state of that shared object. */
module Notifications {
  import opened Options

  /** Display time used until `Initialize` supplies the configured one. */
  const DefaultDuration: real := 5.0
  /** Height of one drawn box. */
  const NotificationHeight: real := 100.0
  /** Vertical gap between two stacked boxes. */
  const NotificationSpacing: real := 10.0
  /** Gap between the bottom screen edge and the first box. */
  const ScreenPadding: real := 20.0

  datatype Notification = Notification(
    id: nat,
    bossName: string,
    location: string,
    showTime: real,
    isVisible: bool)

  datatype Manager = Manager(
    entries: seq<Notification>,
    last: Option<Notification>,
    duration: real,
    nextId: nat)

  /** One box drawn by a frame: which notification, with which alpha, and the
      y coordinate of its top edge. */
  datatype Slot = Slot(id: nat, bossName: string, location: string, alpha: real, top: real)

  // ---------------------------------------------------------------------------
  // Identity and the representation invariant

  predicate HasId(s: seq<Notification>, id: nat) {
    exists i :: 0 <= i < |s| && s[i].id == id
  }

  ghost predicate UniqueIds(s: seq<Notification>) {
    forall i, j :: 0 <= i < j < |s| ==> s[i].id != s[j].id
  }

  /** What every reachable manager satisfies: no object is listed twice, ids
      are handed out in creation order, `last` is the newest object ever
      created, and a listed copy of it is the same object as `last`. */
  ghost predicate Valid(m: Manager) {
    && UniqueIds(m.entries)
    && (forall i :: 0 <= i < |m.entries| ==> m.entries[i].id < m.nextId)
    && (m.last.None? <==> m.nextId == 0)
    && (m.last.Some? ==> m.last.value.id + 1 == m.nextId)
    && (m.last.Some? ==>
          forall i :: 0 <= i < |m.entries| && m.entries[i].id == m.last.value.id ==>
            m.entries[i] == m.last.value)
  }

  /** Position of the first entry with the given identity, the model of
      `List.Contains` under reference equality. */
  function IndexOf(s: seq<Notification>, id: nat): (r: Option<nat>)
    ensures r.Some? ==> r.value < |s| && s[r.value].id == id
    ensures r.Some? ==> forall j :: 0 <= j < r.value ==> s[j].id != id
    ensures r.None? <==> !HasId(s, id)
    decreases |s|
  {
    if |s| == 0 then None
    else if s[0].id == id then Some(0)
    else
      match IndexOf(s[1..], id)
      case None =>
        assert forall i :: 1 <= i < |s| ==> s[i] == s[1..][i - 1];
        None
      case Some(k) => Some(k + 1)
  }

  // ---------------------------------------------------------------------------
  // Construction and raising

  /** A manager with nothing raised yet and the default duration. */
  function Empty(): (r: Manager)
    ensures Valid(r)
    ensures r.entries == [] && r.last.None?
  {
    Manager([], None, DefaultDuration, 0)
  }

  /** `Initialize(duration)`: only the display time changes. */
  function Initialize(m: Manager, duration: real): (r: Manager)
    ensures r.duration == duration
    ensures r.entries == m.entries && r.last == m.last && r.nextId == m.nextId
    ensures Valid(m) ==> Valid(r)
  {
    m.(duration := duration)
  }

  /** `ShowNotification`: a fresh, visible notification stamped with `now`
      goes to the end of the list and becomes the last one. */
  function Show(m: Manager, bossName: string, location: string, now: real): (r: Manager)
    ensures |r.entries| == |m.entries| + 1
    ensures r.entries[..|m.entries|] == m.entries
    ensures var n := r.entries[|m.entries|];
      && n.bossName == bossName && n.location == location
      && n.showTime == now && n.isVisible
      && r.last == Some(n)
    ensures Valid(m) ==> !HasId(m.entries, r.entries[|m.entries|].id)
    ensures r.duration == m.duration
    ensures Valid(m) ==> Valid(r)
  {
    var n := Notification(m.nextId, bossName, location, now, true);
    m.(entries := m.entries + [n], last := Some(n), nextId := m.nextId + 1)
  }

  /** `ShowLastNotification`: restart the last notification's timer and make
      it visible; it stays where it is if still listed, and is appended
      otherwise. Nothing happens if nothing was ever raised. */
  function ShowLast(m: Manager, now: real): (r: Manager)
    ensures m.last.None? ==> r == m
    ensures m.last.Some? ==>
      var u := m.last.value.(showTime := now, isVisible := true);
      && r.last == Some(u)
      && r.duration == m.duration && r.nextId == m.nextId
      && (HasId(m.entries, u.id) ==> |r.entries| == |m.entries|)
      && (!HasId(m.entries, u.id) ==> r.entries == m.entries + [u])
    ensures Valid(m) && m.last.Some? && HasId(m.entries, m.last.value.id) ==>
      forall i :: 0 <= i < |m.entries| ==>
        r.entries[i] == if m.entries[i].id == m.last.value.id
                        then m.last.value.(showTime := now, isVisible := true)
                        else m.entries[i]
    ensures Valid(m) ==> Valid(r)
  {
    match m.last
    case None => m
    case Some(n) =>
      var u := n.(showTime := now, isVisible := true);
      match IndexOf(m.entries, n.id)
      case Some(k) => m.(entries := m.entries[k := u], last := Some(u))
      case None => m.(entries := m.entries + [u], last := Some(u))
  }

  // ---------------------------------------------------------------------------
  // Expiry

  /** The removal test of the prune step: strictly older than the duration. */
  predicate Expired(n: Notification, now: real, duration: real) {
    now - n.showTime > duration
  }

  /** The entries that are not expired, in their original order. */
  function Survivors(s: seq<Notification>, now: real, duration: real): (r: seq<Notification>)
    ensures |r| <= |s|
    ensures forall n {:trigger n in r} :: n in r <==> n in s && !Expired(n, now, duration)
    decreases |s|
  {
    if |s| == 0 then []
    else (if Expired(s[0], now, duration) then [] else [s[0]]) + Survivors(s[1..], now, duration)
  }

  /** The prune step at the start of every frame. */
  function Prune(m: Manager, now: real): (r: Manager)
    ensures forall n :: n in r.entries <==> n in m.entries && now - n.showTime <= m.duration
    ensures r.last == m.last && r.duration == m.duration && r.nextId == m.nextId
    ensures Valid(m) ==> Valid(r)
  {
    SurvivorsUnique(m.entries, now, m.duration);
    m.(entries := Survivors(m.entries, now, m.duration))
  }

  // ---------------------------------------------------------------------------
  // Fade and layout

  /** Opacity of an entry of the given age: full until the last second of its
      duration, then `duration - age`. */
  function Alpha(age: real, duration: real): (a: real)
    ensures a == 1.0 <==> age <= duration - 1.0
    ensures age <= duration ==> 0.0 <= a <= 1.0
  {
    if age > duration - 1.0 then duration - age else 1.0
  }

  /** The visible entries in drawing order: the newest (last listed) first. */
  function NewestFirstVisible(s: seq<Notification>): seq<Notification>
    decreases |s|
  {
    if |s| == 0 then []
    else NewestFirstVisible(s[1..]) + (if s[0].isVisible then [s[0]] else [])
  }

  /** Top edge of the box in slot `k`, counting from the bottom of the screen. */
  function SlotTop(screenHeight: real, k: nat): real {
    screenHeight - ScreenPadding - NotificationHeight
      - (k as real) * (NotificationHeight + NotificationSpacing)
  }

  /** The drawing loop of a frame: walk the list from its end, skip invisible
      entries, and give each visible one the next slot up. */
  method Draw(entries: seq<Notification>, now: real, duration: real, screenHeight: real)
    returns (slots: seq<Slot>)
    ensures var v := NewestFirstVisible(entries);
      && |slots| == |v|
      && forall k :: 0 <= k < |slots| ==>
           && slots[k].id == v[k].id
           && slots[k].bossName == v[k].bossName
           && slots[k].location == v[k].location
           && slots[k].alpha == Alpha(now - v[k].showTime, duration)
           && slots[k].top == SlotTop(screenHeight, k)
  {
    slots := [];
    var yOffset := screenHeight - ScreenPadding;
    var i := |entries|;
    while i > 0
      invariant 0 <= i <= |entries|
      invariant var v := NewestFirstVisible(entries[i..]);
        && |slots| == |v|
        && forall k :: 0 <= k < |slots| ==>
             && slots[k].id == v[k].id
             && slots[k].bossName == v[k].bossName
             && slots[k].location == v[k].location
             && slots[k].alpha == Alpha(now - v[k].showTime, duration)
             && slots[k].top == SlotTop(screenHeight, k)
      invariant yOffset == screenHeight - ScreenPadding
                           - (|slots| as real) * (NotificationHeight + NotificationSpacing)
      decreases i
    {
      i := i - 1;
      var n := entries[i];
      assert entries[i..][1..] == entries[i + 1..];
      if n.isVisible {
        var alpha := Alpha(now - n.showTime, duration);
        slots := slots + [Slot(n.id, n.bossName, n.location, alpha, yOffset - NotificationHeight)];
        yOffset := yOffset - (NotificationHeight + NotificationSpacing);
      }
    }
    assert entries[0..] == entries;
  }

  /** One frame (`OnGUI`): nothing when the list is empty; otherwise prune,
      then lay out what is left. */
  method Frame(m: Manager, now: real, screenHeight: real) returns (r: Manager, slots: seq<Slot>)
    ensures r == Prune(m, now)
    ensures |slots| <= |r.entries|
    ensures forall k :: 0 <= k < |slots| ==> exists n :: n in r.entries && n.id == slots[k].id
    ensures forall k :: 0 <= k < |slots| ==> 0.0 <= slots[k].alpha <= 1.0
    ensures |slots| == |NewestFirstVisible(r.entries)|
    ensures forall k :: 0 <= k < |slots| ==> slots[k].id == NewestFirstVisible(r.entries)[k].id
  {
    if |m.entries| == 0 {
      assert Prune(m, now).entries == [];
      assert NewestFirstVisible(m.entries) == [];
      return m, [];
    }
    r := Prune(m, now);
    slots := Draw(r.entries, now, r.duration, screenHeight);
    var v := NewestFirstVisible(r.entries);
    NewestFirstVisibleFrom(r.entries);
    forall k | 0 <= k < |slots|
      ensures v[k] in r.entries && v[k].id == slots[k].id
      ensures 0.0 <= slots[k].alpha <= 1.0
    {
      assert v[k] in v;
      assert now - v[k].showTime <= r.duration;
    }
  }

  /** Every drawn entry is a visible listed entry, and no more are drawn than
      listed. */
  lemma {:induction false} NewestFirstVisibleFrom(s: seq<Notification>)
    ensures |NewestFirstVisible(s)| <= |s|
    ensures forall n :: n in NewestFirstVisible(s) ==> n in s && n.isVisible
    decreases |s|
  {
    if |s| > 0 {
      NewestFirstVisibleFrom(s[1..]);
    }
  }

  // ---------------------------------------------------------------------------
  // Properties relating several operations

  /** No deduplication: raising the same text twice lists two distinct
      notifications. */
  lemma ShowTwiceListsTwo(m: Manager, bossName: string, location: string, now: real)
    requires Valid(m)
    ensures var r := Show(Show(m, bossName, location, now), bossName, location, now);
      && |r.entries| == |m.entries| + 2
      && r.entries[..|m.entries|] == m.entries
      && r.entries[|m.entries|].id != r.entries[|m.entries| + 1].id
      && r.entries[|m.entries|].bossName == r.entries[|m.entries| + 1].bossName
      && Valid(r)
  {
  }

  /** Pruning works entry by entry, so it keeps the survivors' order: pruning
      a concatenation is concatenating the pruned parts. */
  lemma {:induction false} SurvivorsAppend(a: seq<Notification>, b: seq<Notification>, now: real, duration: real)
    ensures Survivors(a + b, now, duration) == Survivors(a, now, duration) + Survivors(b, now, duration)
    decreases |a|
  {
    if |a| > 0 {
      SurvivorsAppend(a[1..], b, now, duration);
      var tail := Survivors(a[1..], now, duration);
      var sb := Survivors(b, now, duration);
      var head := if Expired(a[0], now, duration) then [] else [a[0]];
      assert Survivors(a + b, now, duration) == head + Survivors(a[1..] + b, now, duration) by {
        assert (a + b)[0] == a[0] && (a + b)[1..] == a[1..] + b;
      }
      assert head + (tail + sb) == (head + tail) + sb;
    } else {
      assert a + b == b;
    }
  }

  /** Filtering is idempotent: the survivors of a prune all survive a
      second prune at the same time. */
  lemma {:induction false} SurvivorsOfSurvivors(s: seq<Notification>, now: real, duration: real)
    ensures Survivors(Survivors(s, now, duration), now, duration) == Survivors(s, now, duration)
    decreases |s|
  {
    if |s| > 0 {
      var head := if Expired(s[0], now, duration) then [] else [s[0]];
      SurvivorsOfSurvivors(s[1..], now, duration);
      SurvivorsAppend(head, Survivors(s[1..], now, duration), now, duration);
      if !Expired(s[0], now, duration) {
        assert Survivors(head, now, duration) == head by {
          assert head[1..] == [];
        }
      }
    }
  }

  /** Pruning twice at the same time is pruning once. */
  lemma PruneIdempotent(m: Manager, now: real)
    ensures Prune(Prune(m, now), now) == Prune(m, now)
  {
    SurvivorsOfSurvivors(m.entries, now, m.duration);
  }

  /** Dropping entries cannot make two listed ids equal. */
  lemma {:induction false} SurvivorsUnique(s: seq<Notification>, now: real, duration: real)
    ensures UniqueIds(s) ==> UniqueIds(Survivors(s, now, duration))
    decreases |s|
  {
    if |s| > 0 && UniqueIds(s) {
      var rest := Survivors(s[1..], now, duration);
      SurvivorsUnique(s[1..], now, duration);
      if !Expired(s[0], now, duration) {
        forall j | 0 <= j < |rest|
          ensures rest[j].id != s[0].id
        {
          assert rest[j] in rest;
          var i :| 0 <= i < |s[1..]| && s[1..][i] == rest[j];
          assert s[i + 1] == rest[j];
        }
      }
    }
  }

  /** The expiry boundary: a notification raised at `t0` is still listed after
      a prune at `now` exactly when `now - t0` does not exceed the duration;
      in particular it survives a prune at `t0 + duration`. */
  lemma ExpiryBoundary(m: Manager, bossName: string, location: string, t0: real, now: real)
    ensures var shown := Show(m, bossName, location, t0);
      var n := shown.entries[|m.entries|];
      n in Prune(shown, now).entries <==> now - t0 <= m.duration
  {
  }

  /** Opacity never increases as an entry ages. */
  lemma AlphaMonotone(age1: real, age2: real, duration: real)
    requires age1 <= age2
    ensures Alpha(age2, duration) <= Alpha(age1, duration)
  {
  }

  /** Opacity falls linearly to zero at the end of the duration. */
  lemma AlphaFadesToZero(duration: real)
    ensures Alpha(duration, duration) == 0.0
    ensures Alpha(duration - 0.5, duration) == 0.5
    ensures Alpha(duration - 1.0, duration) == 1.0
  {
  }

  /** Replay after the last notification has expired and been pruned puts it
      back at the end with a fresh timer, leaving the list otherwise as is. */
  lemma ReplayAfterExpiry(m: Manager, t0: real, now: real, bossName: string, location: string)
    requires Valid(m)
    requires now - t0 > m.duration
    ensures var shown := Show(m, bossName, location, t0);
      var n := shown.entries[|m.entries|];
      var pruned := Prune(shown, now);
      var r := ShowLast(pruned, now);
      && n !in pruned.entries
      && r.entries == pruned.entries + [n.(showTime := now)]
      && Valid(r)
  {
  }

  /** Replay while the last notification is still listed restarts its timer in
      place: same length, same position, nothing else touched. */
  lemma ReplayInPlace(m: Manager, now: real)
    requires Valid(m)
    requires m.last.Some? && m.last.value in m.entries
    ensures var r := ShowLast(m, now);
      && |r.entries| == |m.entries|
      && (forall i :: 0 <= i < |m.entries| && m.entries[i] == m.last.value ==>
            r.entries[i] == m.last.value.(showTime := now, isVisible := true))
      && (forall i :: 0 <= i < |m.entries| && m.entries[i].id != m.last.value.id ==>
            r.entries[i] == m.entries[i])
  {
  }

  /** Raised at t = 10 with a duration of 5: fully opaque at 13.5, half faded
      at 14.5, still listed (at alpha 0) at 15, gone at 15.5. */
  lemma FadeScenario(m: Manager)
    requires m.duration == 5.0
    ensures var shown := Show(m, "Reshala", "Grid: 3, 2", 10.0);
      var n := shown.entries[|m.entries|];
      && Alpha(13.5 - n.showTime, shown.duration) == 1.0
      && Alpha(14.5 - n.showTime, shown.duration) == 0.5
      && n in Prune(shown, 15.0).entries
      && Alpha(15.0 - n.showTime, shown.duration) == 0.0
      && n !in Prune(shown, 15.5).entries
  {
  }
}

=== FILE: options.dfy ===
/** The optional value used wherever the plugin holds a reference
    that may be null. */
module Options {

  datatype Option<+T> = None | Some(value: T) {

    /** The wrapped value, or `default` when there is none. */
    function GetOr(default: T): T {
      match this
      case Some(v) => v
      case None => default
    }
  }
}

=== FILE: session.dfy ===
/** The two components wired together as the plugin wires them: the
    detector's `Update`, the notification list's `OnGUI` prune step and the
    replay hotkey, driven by an arbitrary sequence of events. */
module Session {
  import opened Options
  import Notifications
  import Detector

  datatype Event =
    | TickEvent(now: real, world: Detector.World)
    | FrameEvent(now: real)
    | ReplayEvent(now: real)

  datatype State = State(detector: Detector.Detector, manager: Notifications.Manager)

  /** The state after a run, every notice the detector raised during it, and
      the boss ids that went into the ledger without an announcement. */
  datatype RunResult = RunResult(state: State, notices: seq<Detector.Notice>, lost: set<string>)

  ghost predicate Valid(st: State) {
    Detector.Valid(st.detector) && Notifications.Valid(st.manager)
  }

  /** Plugin start-up: the list gets the configured duration, the detector is
      initialized with the list. */
  function Start(duration: real): (st: State)
    ensures Valid(st)
    ensures st.detector.initialized && st.detector.detected == {} && !st.detector.firstScanDone
    ensures st.manager.entries == [] && st.manager.duration == duration
  {
    State(Detector.Initialize(Detector.Fresh()),
          Notifications.Initialize(Notifications.Empty(), duration))
  }

  /** One event. Frames and replays never touch the detector. */
  function Step(st: State, ev: Event): (r: RunResult)
    ensures !ev.TickEvent? ==> r.notices == [] && r.lost == {} && r.state.detector == st.detector
    ensures Valid(st) ==> Valid(r.state)
    ensures r.state.detector.detected == st.detector.detected + Detector.SightingIds(Detector.Sightings(r.notices)) + r.lost
    ensures r.lost !! st.detector.detected && r.lost !! Detector.SightingIds(Detector.Sightings(r.notices))
    ensures Detector.DistinctIds(Detector.Sightings(r.notices))
    ensures forall k :: 0 <= k < |Detector.Sightings(r.notices)| ==>
      Detector.Sightings(r.notices)[k].profileId !in st.detector.detected
    ensures Detector.CountNoBosses(r.notices) <= 1
    ensures Detector.CountNoBosses(r.notices) == 1 ==> !st.detector.firstScanDone && r.state.detector.firstScanDone
    ensures st.detector.firstScanDone ==> r.state.detector.firstScanDone
    ensures (ev.TickEvent? && st.detector.initialized
             && ev.now - st.detector.lastCheckTime >= st.detector.checkInterval
             && ((st.detector.hasWorld && ev.world.heldAlive) || ev.world.available)) ==>
      var s := Detector.CheckForBosses(ev.world.players, st.detector.detected);
      && Detector.Sightings(r.notices) == s.sightings && r.lost == s.lost
      && (r.state.detector.firstScanDone <==> st.detector.firstScanDone || !s.aborted)
  {
    match ev
    case TickEvent(now, world) =>
      var t := Detector.Tick(st.detector, st.manager, now, world);
      RunResult(State(t.detector, t.manager), t.notices, t.lost)
    case FrameEvent(now) =>
      RunResult(st.(manager := Notifications.Prune(st.manager, now)), [], {})
    case ReplayEvent(now) =>
      RunResult(st.(manager := Notifications.ShowLast(st.manager, now)), [], {})
  }

  /** The events in order. */
  function Run(st: State, evs: seq<Event>): RunResult
    decreases |evs|
  {
    if |evs| == 0 then RunResult(st, [], {})
    else
      var first := Step(st, evs[0]);
      var rest := Run(first.state, evs[1..]);
      RunResult(rest.state, first.notices + rest.notices, first.lost + rest.lost)
  }

  // ---------------------------------------------------------------------------
  // Helpers on notice lists

  lemma {:induction false} SightingsAppend(a: seq<Detector.Notice>, b: seq<Detector.Notice>)
    ensures Detector.Sightings(a + b) == Detector.Sightings(a) + Detector.Sightings(b)
    ensures Detector.CountNoBosses(a + b) == Detector.CountNoBosses(a) + Detector.CountNoBosses(b)
    decreases |a|
  {
    if |a| == 0 {
      assert a + b == b;
    } else {
      assert (a + b)[1..] == a[1..] + b;
      SightingsAppend(a[1..], b);
    }
  }

  lemma {:induction false} SightingIdsAppend(a: seq<Detector.Sighting>, b: seq<Detector.Sighting>)
    ensures Detector.SightingIds(a + b) == Detector.SightingIds(a) + Detector.SightingIds(b)
    decreases |a|
  {
    if |a| == 0 {
      assert a + b == b;
    } else {
      assert (a + b)[1..] == a[1..] + b;
      SightingIdsAppend(a[1..], b);
    }
  }

  /** Two announcement lists with distinct ids, none of the second's ids
      among those already detected or announced by the first, together have
      distinct ids. */
  lemma DistinctAppend(s1: seq<Detector.Sighting>, s2: seq<Detector.Sighting>, detected: set<string>)
    requires Detector.DistinctIds(s1) && Detector.DistinctIds(s2)
    requires forall k :: 0 <= k < |s1| ==> s1[k].profileId !in detected
    requires forall k :: 0 <= k < |s2| ==> s2[k].profileId !in detected + Detector.SightingIds(s1)
    ensures Detector.DistinctIds(s1 + s2)
    ensures forall k :: 0 <= k < |s1 + s2| ==> (s1 + s2)[k].profileId !in detected
  {
    Detector.SightingIdsMembers(s1);
    var ss := s1 + s2;
    forall i, j | 0 <= i < j < |ss|
      ensures ss[i].profileId != ss[j].profileId
    {
      if i < |s1| <= j {
        assert ss[i].profileId in Detector.SightingIds(s1);
        assert ss[j] == s2[j - |s1|];
      } else if |s1| <= i {
        assert ss[i] == s2[i - |s1|] && ss[j] == s2[j - |s1|];
      }
    }
    forall k | |s1| <= k < |ss|
      ensures ss[k].profileId !in detected
    {
      assert ss[k] == s2[k - |s1|];
    }
  }

  // ---------------------------------------------------------------------------
  // Properties of whole runs

  /** Every reachable state keeps both components' invariants. */
  lemma {:induction false} RunPreservesValid(st: State, evs: seq<Event>)
    requires Valid(st)
    ensures Valid(Run(st, evs).state)
    decreases |evs|
  {
    if |evs| > 0 {
      RunPreservesValid(Step(st, evs[0]).state, evs[1..]);
    }
  }

  /** Ledger bookkeeping of two consecutive stretches of a run: each adds
      its announced ids and its lost ids, lost ids being new and never
      announced. */
  lemma LedgerAppend(d0: set<string>, i1: set<string>, l1: set<string>, d1: set<string>,
                     i2: set<string>, l2: set<string>, d2: set<string>)
    requires d1 == d0 + i1 + l1 && l1 !! d0 && l1 !! i1
    requires d2 == d1 + i2 + l2 && l2 !! d1 && l2 !! i2 && i2 !! d1
    ensures d2 == d0 + (i1 + i2) + (l1 + l2)
    ensures l1 + l2 !! d0 && l1 + l2 !! i1 + i2
  {
  }

  /** Deduplication over a whole run: no boss profile is announced twice, and
      none that was already detected is announced at all. */
  lemma {:induction false} RunAnnouncesEachBossOnce(st: State, evs: seq<Event>)
    ensures var r := Run(st, evs);
      var ss := Detector.Sightings(r.notices);
      && Detector.DistinctIds(ss)
      && (forall k :: 0 <= k < |ss| ==> ss[k].profileId !in st.detector.detected)
    decreases |evs|
  {
    if |evs| > 0 {
      var first := Step(st, evs[0]);
      var rest := Run(first.state, evs[1..]);
      RunAnnouncesEachBossOnce(first.state, evs[1..]);
      SightingsAppend(first.notices, rest.notices);
      var s1 := Detector.Sightings(first.notices);
      var s2 := Detector.Sightings(rest.notices);
      SightingIdsAppend(s1, s2);
      DistinctAppend(s1, s2, st.detector.detected);
    }
  }

  /** The ledger after a run is the one before plus the announced ids plus
      the ids lost to a position that could not be read; a lost id was not
      in the ledger before and is never announced. */
  lemma {:induction false} RunLedger(st: State, evs: seq<Event>)
    ensures var r := Run(st, evs);
      var ids := Detector.SightingIds(Detector.Sightings(r.notices));
      && r.state.detector.detected == st.detector.detected + ids + r.lost
      && r.lost !! st.detector.detected
      && r.lost !! ids
    decreases |evs|
  {
    if |evs| > 0 {
      var first := Step(st, evs[0]);
      var rest := Run(first.state, evs[1..]);
      RunLedger(first.state, evs[1..]);
      RunAnnouncesEachBossOnce(first.state, evs[1..]);
      SightingsAppend(first.notices, rest.notices);
      var s1 := Detector.Sightings(first.notices);
      var s2 := Detector.Sightings(rest.notices);
      SightingIdsAppend(s1, s2);
      Detector.SightingIdsMembers(s2);
      LedgerAppend(st.detector.detected, Detector.SightingIds(s1), first.lost, first.state.detector.detected,
                   Detector.SightingIds(s2), rest.lost, rest.state.detector.detected);
    }
  }

  /** The no-bosses notice is raised at most once over a run, and never once
      the first scan has completed. */
  lemma {:induction false} RunNoBossesAtMostOnce(st: State, evs: seq<Event>)
    ensures Detector.CountNoBosses(Run(st, evs).notices) <= 1
    ensures st.detector.firstScanDone ==> Detector.CountNoBosses(Run(st, evs).notices) == 0
    decreases |evs|
  {
    if |evs| > 0 {
      var first := Step(st, evs[0]);
      var rest := Run(first.state, evs[1..]);
      RunNoBossesAtMostOnce(first.state, evs[1..]);
      SightingsAppend(first.notices, rest.notices);
    }
  }

  /** The detector's ledger only grows during a run: a detected boss stays
      detected. */
  lemma {:induction false} RunKeepsDetected(st: State, evs: seq<Event>)
    ensures st.detector.detected <= Run(st, evs).state.detector.detected
    decreases |evs|
  {
    if |evs| > 0 {
      RunKeepsDetected(Step(st, evs[0]).state, evs[1..]);
    }
  }

  /** A raid with no bosses at first: the first scan (at t = 2) raises the
      no-bosses notice; a later scan that sees Killa announces Killa and
      no second no-bosses notice. */
  lemma EmptyFirstScanThenBoss(duration: real, killa: Detector.Entity)
    requires killa.Player? && killa.profile == Some(Detector.Profile(Some("bossKilla")))
    requires !killa.isYourPlayer && killa.position.Some?
    ensures var st := Start(duration);
      var first := Detector.Tick(st.detector, st.manager, 2.0, Detector.World(true, true, Some([])));
      var second := Detector.Tick(first.detector, first.manager, 4.0, Detector.World(true, true, Some([killa])));
      && first.notices == [Detector.NoBossesNotice]
      && second.notices == [Detector.BossNotice(Detector.SightingOf(killa))]
      && |second.manager.entries| == 2
  {
    var st := Start(duration);
    var w1 := Detector.World(true, true, Some([]));
    var w2 := Detector.World(true, true, Some([killa]));
    Detector.FirstEmptyScanRaisesNoBosses(st.detector, st.manager, 2.0, w1);
    var first := Detector.Tick(st.detector, st.manager, 2.0, w1);
    assert |first.manager.entries| == 1;
    Detector.LaterScanAnnouncesNewBoss(first.detector, first.manager, 4.0, w2, killa);
  }

  /** Source quirk: an aborted first pass that announced a boss does not
      count as the first scan, so the next completed pass, which finds that
      boss already in the ledger, reports "No bosses detected" after Killa
      was announced. */
  lemma AbortedFirstPassThenNoBosses(duration: real, killa: Detector.Entity)
    requires killa.Player? && killa.profile == Some(Detector.Profile(Some("bossKilla")))
    requires !killa.isYourPlayer && killa.position.Some?
    ensures var st := Start(duration);
      var first := Detector.Tick(st.detector, st.manager, 2.0, Detector.World(true, true, Some([killa, Detector.Unreadable])));
      var second := Detector.Tick(first.detector, first.manager, 4.0, Detector.World(true, true, Some([killa])));
      && first.notices == [Detector.BossNotice(Detector.SightingOf(killa))]
      && second.notices == [Detector.NoBossesNotice]
  {
    var st := Start(duration);
    var id := killa.profileId;
    var sighting := Detector.SightingOf(killa);
    assert Detector.IsBoss(killa);
    assert [killa, Detector.Unreadable][1..] == [Detector.Unreadable];
    assert Detector.Scan([Detector.Unreadable], {id}) == Detector.ScanResult([], {id}, {}, true);
    assert Detector.Scan([killa, Detector.Unreadable], {}) == Detector.ScanResult([sighting], {id}, {}, true);
    assert Detector.BossNotices([sighting]) == [Detector.BossNotice(sighting)];
    var first := Detector.Tick(st.detector, st.manager, 2.0, Detector.World(true, true, Some([killa, Detector.Unreadable])));
    assert first.detector.detected == {id} && !first.detector.firstScanDone && !first.detector.noBossesNotified;
    assert first.detector.lastCheckTime == 2.0 && first.detector.initialized;
    assert [killa][1..] == [];
    assert Detector.Scan([], {id}) == Detector.ScanResult([], {id}, {}, false);
    assert Detector.Scan([killa], {id}) == Detector.ScanResult([], {id}, {}, false);
  }

  /** A boss whose position cannot be read when it is first seen is never
      announced: its id is in the ledger, the pass stops, and the next
      completed pass that sees it reports "No bosses detected". */
  lemma PositionFailureSilencesBoss(duration: real, killa: Detector.Entity)
    requires killa.Player? && killa.profile == Some(Detector.Profile(Some("bossKilla")))
    requires !killa.isYourPlayer && killa.position.None?
    ensures var st := Start(duration);
      var first := Detector.Tick(st.detector, st.manager, 2.0, Detector.World(true, true, Some([killa])));
      var readable := killa.(position := Some(Detector.Position(0.0, 0.0)));
      var second := Detector.Tick(first.detector, first.manager, 4.0, Detector.World(true, true, Some([readable])));
      && first.notices == [] && first.lost == {killa.profileId}
      && killa.profileId in first.detector.detected
      && second.notices == [Detector.NoBossesNotice]
  {
    var st := Start(duration);
    var id := killa.profileId;
    var readable := killa.(position := Some(Detector.Position(0.0, 0.0)));
    assert Detector.IsBoss(killa) && Detector.IsBoss(readable);
    assert Detector.Scan([killa], {}) == Detector.ScanResult([], {id}, {id}, true);
    var first := Detector.Tick(st.detector, st.manager, 2.0, Detector.World(true, true, Some([killa])));
    assert first.detector.detected == {id} && !first.detector.firstScanDone && !first.detector.noBossesNotified;
    assert first.detector.lastCheckTime == 2.0 && first.detector.initialized;
    assert [readable][1..] == [];
    assert Detector.Scan([], {id}) == Detector.ScanResult([], {id}, {}, false);
    assert Detector.Scan([readable], {id}) == Detector.ScanResult([], {id}, {}, false);
  }
}
